=== FILE: README.md ===
# Prompt playground — a Dafny model

The prompt playground is a single page for trying out chat-completion settings. A user
edits a configuration: the model, temperature, token budget, presence and frequency
penalties, the system and user prompts, and an optional stop sequence. The page then
does one of two things:

- It generates one response and puts it at the top of a history.
- It runs a **grid sweep**: it requests a response for every combination of
  3 temperatures × 3 token budgets × 2 presence penalties × 2 frequency penalties.
  It keeps the points that succeeded, in loop order.

Every response has an **analysis panel** underneath it. The panel classifies each of the
four numbers into a band and shows that band's text.

The model has five modules, one per file:

| module | file | models |
|---|---|---|
| `PlaygroundTypes` | `types.dfy` | the configuration, result and grid-entry records, the model identifiers, the default configuration and the input bounds |
| `Analysis` | `analysis.dfy` | the three classifiers: temperature in five bands, token budget in five bands, each penalty in four bands; the texts they produce; readers that recover the band from a text |
| `ResponseAnalysis` | `response_analysis.dfy` | the four-fragment analysis panel |
| `GridSweep` | `grid_sweep.dfy` | the 36-point enumeration, the per-point step and the sweep loop |
| `Playground` | `playground.dfy` | the page state, field edits, single generation and the grid button |

Four modelling choices:

- **Renderer.** JavaScript renders a number inside a template literal (`${temp}`). The model
  makes that rendering a parameter, `Renderer = real -> string`. Every property holds for any
  renderer.
- **Texts and bands.** Each band's text is a `Template`: either a fixed literal, or a prefix,
  the rendered value, and a suffix. For each classifier, a reader (`*BandOfText`) maps a text
  back to its band. It does this by matching the text's fixed ending. The round-trip lemmas
  (`*TextDecodes`) prove that the text always determines the band, whatever the renderer.
- **Generator.** A request to the generation endpoint is a `Generator`, a function from a
  configuration to a reply: `Generated(response)` or `Failed(message)`. The 36 points of a
  sweep are pairwise distinct (`GridSweep.GridPointsDistinct`). So a function covers every
  pattern of replies a sweep can see.
- **Progress.** Progress is reported only after a success: the counter and the notice sit
  after the push, inside the per-point `try` (src/components/Playground.tsx:143-150), and a
  failed point reports nothing. The model's progress reports therefore count successes.

## Model

| member | source | states |
|---|---|---|
| PlaygroundTypes.ParseModelName | src/types/playground.ts:2 | An identifier names a model exactly when it is one of the two identifiers; otherwise no model matches it |
| PlaygroundTypes.ModelIdRoundTrip | src/types/playground.ts:2 | Each of the two models is recovered from its own identifier |
| PlaygroundTypes.DefaultConfigValues | src/types/playground.ts:30-38 | The default configuration uses gpt-3.5-turbo, temperature 0.7, 150 tokens, both penalties 0.0 and no stop sequence |
| PlaygroundTypes.DefaultConfigWithinInputBounds | src/types/playground.ts:30-38 | The default configuration is within the page's input ranges: temperature [0,2], tokens [1,2000], penalties [-2,2] |
| Analysis.ClassifyTemperature | src/utils/analysisUtils.ts:1-12 | The band chosen is the one whose interval contains the temperature: exactly 0; below 0.5 (negatives included); up to 0.8; up to 1.2; above 1.2 |
| Analysis.TemperatureBandIff | src/utils/analysisUtils.ts:2-11 | A temperature lies in a band's interval if and only if the classifier picks that band, so the intervals do not overlap |
| Analysis.TemperatureRankMonotone | src/utils/analysisUtils.ts:4-11 | For non-negative temperatures, a hotter temperature never gets a cooler band |
| Analysis.TemperatureBoundaries | src/utils/analysisUtils.ts:2-11 | 0 is the zero band; -0.5 and 0.49 are conservative; 0.5 and 0.8 are balanced; 0.81 and 1.2 are creative; 1.21 is highly creative |
| Analysis.AnalyzeTemperature | src/utils/analysisUtils.ts:2-3 | At temperature exactly 0, the text is the fixed zero-temperature literal, with no value spliced in |
| Analysis.TemperatureTailDecodes | src/utils/analysisUtils.ts:3-11 | Any text ending with a temperature band's fixed ending is read back as that band, so the five endings are told apart |
| Analysis.TemperatureTextDecodes | src/utils/analysisUtils.ts:1-13 | The temperature text, for any rendering of the value, is read back as the band the classifier chose |
| Analysis.TemperatureTextFactorsThroughBand | src/utils/analysisUtils.ts:4-11 | Two temperatures in the same band with the same rendering get the same text |
| Analysis.TemperatureTextShowsValue | src/utils/analysisUtils.ts:4-11 | For a non-zero temperature, two different renderings of the value give two different texts, so the text embeds the value |
| Analysis.ClassifyTokens | src/utils/analysisUtils.ts:15-26 | The band chosen is the one whose interval contains the budget: below 50; 50-100; 101-200; 201-500; above 500 |
| Analysis.TokenBandIff | src/utils/analysisUtils.ts:16-25 | A budget lies in a band's interval if and only if the classifier picks that band |
| Analysis.TokenRankMonotone | src/utils/analysisUtils.ts:16-25 | A larger token budget never gets a smaller band |
| Analysis.TokenBoundaries | src/utils/analysisUtils.ts:15-26 | 49 is concise; 50 and 100 are key features; 101 and 200 are balanced; 201 and 500 are comprehensive; 501 is very detailed |
| Analysis.AnalyzeTokens | src/utils/analysisUtils.ts:15-27 | The token text ends with the fixed ending of the classified band |
| Analysis.TokenTailDecodes | src/utils/analysisUtils.ts:17-25 | Any text ending with a token band's fixed ending is read back as that band |
| Analysis.TokenTextDecodes | src/utils/analysisUtils.ts:15-27 | The token text, for any rendering of the budget, is read back as the band the classifier chose |
| Analysis.TokenTextFactorsThroughBand | src/utils/analysisUtils.ts:16-25 | Two budgets in the same band with the same rendering get the same text: each band's text is one fixed template around the rendered count |
| Analysis.TokenTextShowsValue | src/utils/analysisUtils.ts:17-25 | Two different renderings of the budget give two different texts in every band |
| Analysis.ClassifyPenalty | src/utils/analysisUtils.ts:33-52 | The band chosen is the one whose interval contains the penalty: exactly 0; below 1.0 (negatives included); 1.0 to 2.0; above 2.0. Both penalties use the same band |
| Analysis.PenaltyBandIff | src/utils/analysisUtils.ts:33-52 | A penalty lies in a band's interval if and only if the classifier picks that band |
| Analysis.PenaltyBoundaries | src/utils/analysisUtils.ts:33-52 | 0 is no penalty; -1.5 and 0.99 are moderate; 1.0 and 2.0 are high; 2.0001 is very high |
| Analysis.PenaltyInputNeverVeryHigh | src/components/Playground.tsx:306-308 | A penalty within the input's [-2, 2] range never reaches the very-high band |
| Analysis.PresenceTailDecodes | src/utils/analysisUtils.ts:33-41 | Any text ending with a presence band's fixed ending is read back as that band |
| Analysis.FrequencyTailDecodes | src/utils/analysisUtils.ts:44-52 | Any text ending with a frequency band's fixed ending is read back as that band |
| Analysis.PenaltyTextDecodes | src/utils/analysisUtils.ts:33-52 | Each penalty text is read back, by the reader for its own kind, as the band the classifier chose |
| Analysis.AnalyzePenalty | src/utils/analysisUtils.ts:33-52 | One penalty's text ends with the fixed ending of its kind's classified band, and a zero penalty gives its kind's fixed literal |
| Analysis.AnalyzePenalties | src/utils/analysisUtils.ts:29-55 | Exactly two texts: first the presence penalty's text, then the frequency penalty's text, each built by its own kind's template. The first reads back as the presence band and the second as the frequency band. A zero penalty gives its fixed literal |
| Analysis.PenaltiesIndependent | src/utils/analysisUtils.ts:33-52 | The presence text does not depend on the frequency penalty, and the frequency text does not depend on the presence penalty |
| Analysis.PenaltyTextFactorsThroughBand | src/utils/analysisUtils.ts:33-52 | For either kind, two penalties in the same band with the same rendering get the same text: each band's text is one fixed template around the rendered value |
| Analysis.PenaltyTextShowsValue | src/utils/analysisUtils.ts:35-51 | For a non-zero penalty of either kind, two different renderings give two different texts |
| ResponseAnalysis.Report | src/components/ResponseAnalysis.tsx:16-38 | The panel has four fragments, in order: the temperature analysis of the temperature, the token analysis of the budget, then the two penalty analyses in the order returned. They read back as exactly the four bands of the four numbers |
| ResponseAnalysis.ReportFragmentsAreLocal | src/components/ResponseAnalysis.tsx:17-19 | Each fragment depends only on its own number: configurations that agree on that number agree on that fragment |
| ResponseAnalysis.GridEntryReportMatchesConfig | src/components/ResponseAnalysis.tsx:5-10 | A grid entry gets the same panel as any configuration with the same four numbers |
| GridSweep.TotalIs36 | src/components/Playground.tsx:97-104 | The total fixed before the first request is 3 × 3 × 2 × 2 = 36 |
| GridSweep.IndexOf | src/components/Playground.tsx:108-111 | The number of points the nested loops visit before a position is below the total |
| GridSweep.CoordinatesOf | src/components/Playground.tsx:108-111 | Point i of the loops is a valid position, and it is visited after exactly i points |
| GridSweep.CoordinatesRoundTrip | src/components/Playground.tsx:108-111 | Each loop position is recovered from its visit index |
| GridSweep.EnumerationIsLexicographic | src/components/Playground.tsx:108-111 | One position is visited before another if and only if it is lexicographically smaller, temperature first. Temperature changes slowest and frequency fastest |
| GridSweep.GridPoints | src/components/Playground.tsx:112-118 | There are 36 points. Each has the base's model, prompts and stop sequence |
| GridSweep.GridPointAt | src/components/Playground.tsx:108-118 | The point at a loop position is the base with the four swept fields set to that position's axis values |
| GridSweep.GridPointsDistinct | src/components/Playground.tsx:97-118 | No two of the 36 points are the same configuration |
| GridSweep.GridPointsWithinInputBounds | src/components/Playground.tsx:97-118 | Whatever the base configuration holds, every point a sweep sends has its four numbers within the page's input ranges |
| GridSweep.SuccessesAndFailuresPartition | src/components/Playground.tsx:120-153 | Every point is either kept or logged as a failure, never both |
| GridSweep.SuccessIndicesPickSuccesses | src/components/Playground.tsx:134-141 | Each kept entry comes from a successful point, with that point's four numbers and its own response |
| GridSweep.SuccessIndicesIncreasing | src/components/Playground.tsx:108-141 | The kept entries follow the loop order |
| GridSweep.SuccessIndicesComplete | src/components/Playground.tsx:120-141 | Every successful point is among the kept ones |
| GridSweep.AllSucceed | src/components/Playground.tsx:134-141 | When every request succeeds, every point is kept, in loop order |
| GridSweep.VisitPoint | src/components/Playground.tsx:120-153 | One step of the sweep keeps it consistent with one more point. On success it appends the entry and a progress report equal to the new count; on failure it only logs the message and goes on |
| GridSweep.RunSweep | src/components/Playground.tsx:102-157 | The entries are exactly the successful points in loop order, at most 36, and the failures are logged. The progress reports are 1/36, 2/36, …: one per success |
| Playground.InitialStateValues | src/components/Playground.tsx:50-54 | The page opens on the default configuration, with an empty history, an empty grid and neither loading flag set |
| Playground.HandleConfigChange | src/components/Playground.tsx:58-60 | The named field takes the new value and every other field keeps its old value |
| Playground.FieldsDetermineConfig | src/types/playground.ts:1-10 | Two configurations that agree on every field are equal |
| Playground.LaterEditWins | src/components/Playground.tsx:58-60 | Of two edits to the same field, only the later one takes effect |
| Playground.EditsToDifferentFieldsCommute | src/components/Playground.tsx:58-60 | Edits to different fields give the same configuration in either order |
| Playground.EditToCurrentValueIsIdentity | src/components/Playground.tsx:58-60 | Setting a field to its current value leaves the configuration unchanged |
| Playground.ChangeConfig | src/components/Playground.tsx:58-60 | An edit sets the named field and keeps every other field of the configuration, the history, the grid and both loading flags |
| Playground.GenerateResponse | src/components/Playground.tsx:62-91 | A success puts one entry in front of the history: a copy of the configuration and the response. A failure leaves the history unchanged. Either way, the older entries follow unchanged and loading ends |
| Playground.GenerateGrid | src/components/Playground.tsx:93-171 | While a sweep is running, pressing the button changes nothing. Otherwise the grid is replaced, not appended to, by the successful points in loop order, and loading ends. There is one progress report per kept entry, numbered 1/36, 2/36, …, and one logged failure per failed point |
| Playground.GridPanelsMatchPoints | src/components/Playground.tsx:438-457 | The panel under each grid entry is the panel of the configuration that entry was generated from |

## Left out

- There is no cancellation, and the four axes are fixed (src/components/Playground.tsx:97-100).
- Rendering of numbers inside texts (`Number.prototype.toString`) is the `Renderer` parameter. The texts' exact digits are not modelled; only where the rendering goes.
- IEEE-754 behaviour is not modelled, because numbers are exact `real`s and `int`s:
  - NaN fails every comparison and would fall through to the top band;
  - `-0 === 0`;
  - rounding.
- The request to the generation endpoint is not modelled: the HTTP call, its JSON body, the non-ok status check and the message fallbacks (src/components/Playground.tsx:65-77, 121-133). The `Generator` parameter stands for all of them.
- The Express server and the chat-completion client (src/server/index.ts, src/server/api/generate.ts) are network I/O around a library that is not part of this model.
- The wording and durations of the notices (toasts), and the single generation's error notice (src/components/Playground.tsx:81-87), are not modelled. The grid's progress notices and its failure log (src/components/Playground.tsx:144-152) are modelled: they are the `progress` and `errors` outputs of `GridSweep.RunSweep` and `Playground.GenerateGrid`.
- JSX layout, animation, clipboard, the theme and the app shell are not modelled; they have no state logic.
- The copy of the configuration stored with a history entry (`{ ...config }`, src/components/Playground.tsx:79) guards against aliasing of a mutable object. Dafny datatypes are values, so the model's stored configuration is a copy by construction and no separate statement is made about it.
- React's asynchronous state updates and render batching are not modelled. Each operation is modelled as one step from the state before to the state after. The intermediate "loading" state between the two is not observable in the model.
- The outer error handler of the grid sweep (src/components/Playground.tsx:160-167) is not modelled. Every request error is caught per point, so that handler is unreachable.
- Playground.GenerateResponse does not model a request that is still pending: it returns the state after the reply. The `error` field of a history entry is never set by the page, and the model keeps it empty.
- Playground.Edit: the selector's two options (src/components/Playground.tsx:232-233) are exactly the two identifiers, so `SetModel` takes a `ModelName`; `PlaygroundTypes.ParseModelName` is the narrowing from the handler's untyped value. The numeric inputs are assumed to deliver numbers.
- Analysis.ClassifyTokens: the token budget is modelled as an integer, while the source types it as a number (src/types/playground.ts:4) and the input may deliver a fraction such as 100.5. The source would put 100.5 in the balanced band (it fails `<= 100` and passes `<= 200`), which the integer intervals cannot express. This narrowing does not matter for the grid, whose budgets 50, 150 and 300 are integers. For single generations, the intervals still hold exactly at every integer budget; only fractional budgets fall outside the model.
- Analysis.AnalyzeTemperature: its own contract states only the fixed zero-temperature literal. The link between text and band is `Analysis.TemperatureTextDecodes`, the fixed template per band is `Analysis.TemperatureTextFactorsThroughBand`, and the spliced value is `Analysis.TemperatureTextShowsValue`.
- Analysis.AnalyzeTokens: its own contract states only the fixed ending of the band. The link between text and band is `Analysis.TokenTextDecodes`, the fixed template per band is `Analysis.TokenTextFactorsThroughBand`, and the spliced value is `Analysis.TokenTextShowsValue`.

=== FILE: analysis.dfy ===
/**
 The response-analysis engine: three pure classifiers that place a generation
 parameter in one of a few ordered bands and describe the band with a fixed
 text, into which the parameter's rendering is spliced.

 Each classifier is a chain of tests where the first match wins, and is
 checked against an interval description of its bands. Each text is checked
 against a decoder that reads the band back from the text alone, whatever the
 number rendering is.
 */
module Analysis {
  import opened PlaygroundTypes

  /** How the page renders a number inside a template literal. It is a
      parameter: every property below holds for every rendering. */
  type Renderer = real -> string

  predicate EndsWith(s: string, t: string) {
    |t| <= |s| && s[|s| - |t|..] == t
  }

  /** A band's text: a literal, or a literal around the rendered value. */
  datatype Template = Fixed(text: string) | Around(prefix: string, suffix: string) {
    function Fill(value: string): string {
      match this
      case Fixed(t) => t
      case Around(p, s) => p + value + s
    }

    /** The part of every filled text that ends it, whatever the value. */
    function Tail(): string {
      match this
      case Fixed(t) => t
      case Around(_, s) => s
    }
  }

  lemma FillEndsWithTail(t: Template, value: string)
    ensures EndsWith(t.Fill(value), t.Tail())
  {
    if t.Around? {
      var s := t.Fill(value);
      assert s[|s| - |t.suffix|..] == t.suffix;
    }
  }

  /** A template around the value shows the value: two renderings that differ
      give two texts that differ. */
  lemma FillInjective(t: Template, x: string, y: string)
    requires t.Around?
    requires t.Fill(x) == t.Fill(y)
    ensures x == y
  {
    var s := t.Fill(x);
    assert |x| == |y|;
    assert x == s[|t.prefix|..|t.prefix| + |x|];
    assert y == s[|t.prefix|..|t.prefix| + |y|];
  }

  /** The character k places before the last one. */
  function FromEnd(s: string, k: nat): char
    requires k < |s|
  {
    s[|s| - 1 - k]
  }

  /** Two tails whose k-th characters from the end differ cannot both end one text. */
  lemma Apart(s: string, a: string, b: string, k: nat)
    requires k < |a| && k < |b| && FromEnd(a, k) != FromEnd(b, k)
    ensures !(EndsWith(s, a) && EndsWith(s, b))
  {
  }

  // ---------------------------------------------------------------- temperature

  datatype TemperatureBand = ZeroTemperature | Conservative | Balanced | Creative | HighlyCreative

  /** The bands as intervals. Only an exact zero is the zero band, so
      negative temperatures are conservative. */
  predicate InTemperatureBand(b: TemperatureBand, t: real) {
    match b
    case ZeroTemperature => t == 0.0
    case Conservative => t < 0.5 && t != 0.0
    case Balanced => 0.5 <= t <= 0.8
    case Creative => 0.8 < t <= 1.2
    case HighlyCreative => 1.2 < t
  }

  function ClassifyTemperature(t: real): (b: TemperatureBand)
    ensures InTemperatureBand(b, t)
  {
    if t == 0.0 then ZeroTemperature
    else if t < 0.5 then Conservative
    else if t <= 0.8 then Balanced
    else if t <= 1.2 then Creative
    else HighlyCreative
  }

  /** The intervals do not overlap: the classifier's band is the only band
      whose interval holds the temperature. */
  lemma TemperatureBandIff(b: TemperatureBand, t: real)
    ensures InTemperatureBand(b, t) <==> ClassifyTemperature(t) == b
  {
  }

  function TemperatureRank(b: TemperatureBand): nat {
    match b
    case ZeroTemperature => 0
    case Conservative => 1
    case Balanced => 2
    case Creative => 3
    case HighlyCreative => 4
  }

  /** On the documented domain a hotter temperature never gets a cooler band. */
  lemma TemperatureRankMonotone(t1: real, t2: real)
    requires 0.0 <= t1 <= t2
    ensures TemperatureRank(ClassifyTemperature(t1)) <= TemperatureRank(ClassifyTemperature(t2))
  {
  }

  lemma TemperatureBoundaries()
    ensures ClassifyTemperature(0.0) == ZeroTemperature
    ensures ClassifyTemperature(-0.5) == Conservative
    ensures ClassifyTemperature(0.49) == Conservative
    ensures ClassifyTemperature(0.5) == Balanced && ClassifyTemperature(0.8) == Balanced
    ensures ClassifyTemperature(0.81) == Creative && ClassifyTemperature(1.2) == Creative
    ensures ClassifyTemperature(1.21) == HighlyCreative
  {
  }

  const TemperatureZeroText: string := "At temperature 0.0, the response is highly deterministic and factual. You'll notice more standard product specifications and conventional descriptions, focusing on verified features and specifications."
  const ConservativeTail: string := ", the response remains quite conservative and factual, with minimal creative variation."
  const BalancedTail: string := ", there's a good balance between creativity and reliability. The description maintains factual accuracy while incorporating some creative elements."
  const CreativeTail: string := ", the response shows increased creativity and variability. Expect more unique descriptions and diverse language."
  const HighlyCreativeTail: string := "), the response will be highly creative and unpredictable, potentially with very diverse and unexpected descriptions."

  function TemperatureTemplate(b: TemperatureBand): Template {
    match b
    case ZeroTemperature => Fixed(TemperatureZeroText)
    case Conservative => Around("At temperature ", ConservativeTail)
    case Balanced => Around("At temperature ", BalancedTail)
    case Creative => Around("At temperature ", CreativeTail)
    case HighlyCreative => Around("At this high temperature (", HighlyCreativeTail)
  }

  function AnalyzeTemperature(t: real, render: Renderer): (r: string)
    ensures t == 0.0 ==> r == TemperatureZeroText
  {
    TemperatureTemplate(ClassifyTemperature(t)).Fill(render(t))
  }

  /** Reads the temperature band back from an analysis text: the first band,
      coolest first, whose tail ends the text. */
  function TemperatureBandOfText(s: string): Option<TemperatureBand> {
    if EndsWith(s, TemperatureZeroText) then Some(ZeroTemperature)
    else if EndsWith(s, ConservativeTail) then Some(Conservative)
    else if EndsWith(s, BalancedTail) then Some(Balanced)
    else if EndsWith(s, CreativeTail) then Some(Creative)
    else if EndsWith(s, HighlyCreativeTail) then Some(HighlyCreative)
    else None
  }

  /** The characters near the end that tell the temperature tails apart. */
  lemma TemperatureTailEndings()
    ensures |TemperatureZeroText| > 6 && |HighlyCreativeTail| > 6
    ensures FromEnd(TemperatureZeroText, 1) == 's' && FromEnd(TemperatureZeroText, 2) == 'n'
    ensures FromEnd(TemperatureZeroText, 6) == 'a'
    ensures FromEnd(ConservativeTail, 1) == 'n'
    ensures FromEnd(BalancedTail, 1) == 's' && FromEnd(BalancedTail, 2) == 't'
    ensures FromEnd(CreativeTail, 1) == 'e'
    ensures FromEnd(HighlyCreativeTail, 1) == 's' && FromEnd(HighlyCreativeTail, 2) == 'n'
    ensures FromEnd(HighlyCreativeTail, 6) == 'p'
  {
  }

  /** Any text that ends with a band's tail is read back as that band. */
  lemma TemperatureTailDecodes(s: string, b: TemperatureBand)
    requires EndsWith(s, TemperatureTemplate(b).Tail())
    ensures TemperatureBandOfText(s) == Some(b)
  {
    TemperatureTailEndings();
    match b
    case ZeroTemperature =>
    case Conservative =>
      Apart(s, TemperatureZeroText, ConservativeTail, 1);
    case Balanced =>
      Apart(s, TemperatureZeroText, BalancedTail, 2);
      Apart(s, ConservativeTail, BalancedTail, 1);
    case Creative =>
      Apart(s, TemperatureZeroText, CreativeTail, 1);
      Apart(s, ConservativeTail, CreativeTail, 1);
      Apart(s, BalancedTail, CreativeTail, 1);
    case HighlyCreative =>
      Apart(s, TemperatureZeroText, HighlyCreativeTail, 6);
      Apart(s, ConservativeTail, HighlyCreativeTail, 1);
      Apart(s, BalancedTail, HighlyCreativeTail, 2);
      Apart(s, CreativeTail, HighlyCreativeTail, 1);
  }

  lemma TemperatureTextDecodes(t: real, render: Renderer)
    ensures TemperatureBandOfText(AnalyzeTemperature(t, render)) == Some(ClassifyTemperature(t))
  {
    FillEndsWithTail(TemperatureTemplate(ClassifyTemperature(t)), render(t));
    TemperatureTailDecodes(AnalyzeTemperature(t, render), ClassifyTemperature(t));
  }

  /** The text depends on the temperature only through its band and its rendering. */
  lemma TemperatureTextFactorsThroughBand(t1: real, t2: real, render1: Renderer, render2: Renderer)
    requires ClassifyTemperature(t1) == ClassifyTemperature(t2)
    requires render1(t1) == render2(t2)
    ensures AnalyzeTemperature(t1, render1) == AnalyzeTemperature(t2, render2)
  {
  }

  /** Every band but the zero band splices in the rendered value. */
  lemma TemperatureTextShowsValue(t: real, render1: Renderer, render2: Renderer)
    requires t != 0.0
    requires render1(t) != render2(t)
    ensures AnalyzeTemperature(t, render1) != AnalyzeTemperature(t, render2)
  {
    if AnalyzeTemperature(t, render1) == AnalyzeTemperature(t, render2) {
      FillInjective(TemperatureTemplate(ClassifyTemperature(t)), render1(t), render2(t));
    }
  }

  // ---------------------------------------------------------------- tokens

  datatype TokenBand = Concise | KeyFeatures | BalancedDetail | Comprehensive | VeryDetailed

  /** The bands as intervals; each upper bound belongs to its band. */
  predicate InTokenBand(b: TokenBand, n: int) {
    match b
    case Concise => n < 50
    case KeyFeatures => 50 <= n <= 100
    case BalancedDetail => 101 <= n <= 200
    case Comprehensive => 201 <= n <= 500
    case VeryDetailed => 500 < n
  }

  function ClassifyTokens(n: int): (b: TokenBand)
    ensures InTokenBand(b, n)
  {
    if n < 50 then Concise
    else if n <= 100 then KeyFeatures
    else if n <= 200 then BalancedDetail
    else if n <= 500 then Comprehensive
    else VeryDetailed
  }

  lemma TokenBandIff(b: TokenBand, n: int)
    ensures InTokenBand(b, n) <==> ClassifyTokens(n) == b
  {
  }

  function TokenRank(b: TokenBand): nat {
    match b
    case Concise => 0
    case KeyFeatures => 1
    case BalancedDetail => 2
    case Comprehensive => 3
    case VeryDetailed => 4
  }

  /** A larger budget never gets a smaller band. */
  lemma TokenRankMonotone(n1: int, n2: int)
    requires n1 <= n2
    ensures TokenRank(ClassifyTokens(n1)) <= TokenRank(ClassifyTokens(n2))
  {
  }

  lemma TokenBoundaries()
    ensures ClassifyTokens(49) == Concise
    ensures ClassifyTokens(50) == KeyFeatures && ClassifyTokens(100) == KeyFeatures
    ensures ClassifyTokens(101) == BalancedDetail && ClassifyTokens(200) == BalancedDetail
    ensures ClassifyTokens(201) == Comprehensive && ClassifyTokens(500) == Comprehensive
    ensures ClassifyTokens(501) == VeryDetailed
  {
  }

  const ConciseTail: string := " tokens, the response will be very concise, possibly incomplete for complex descriptions."
  const KeyFeaturesTail: string := " tokens, the response focuses on key features with minimal detail."
  const BalancedDetailTail: string := " tokens allows for a balanced description with moderate detail."
  const ComprehensiveTail: string := " tokens, the response can be quite comprehensive, including detailed features and context."
  const VeryDetailedTail: string := " tokens, expect a very detailed response that could cover extensive product details, comparisons, and use cases."

  function TokenTemplate(b: TokenBand): Template {
    match b
    case Concise => Around("With only ", ConciseTail)
    case KeyFeatures => Around("With ", KeyFeaturesTail)
    case BalancedDetail => Around("", BalancedDetailTail)
    case Comprehensive => Around("With ", ComprehensiveTail)
    case VeryDetailed => Around("With ", VeryDetailedTail)
  }

  function AnalyzeTokens(n: int, render: Renderer): (r: string)
    ensures EndsWith(r, TokenTemplate(ClassifyTokens(n)).Tail())
  {
    FillEndsWithTail(TokenTemplate(ClassifyTokens(n)), render(n as real));
    TokenTemplate(ClassifyTokens(n)).Fill(render(n as real))
  }

  /** Reads the token band back from an analysis text. */
  function TokenBandOfText(s: string): Option<TokenBand> {
    if EndsWith(s, ConciseTail) then Some(Concise)
    else if EndsWith(s, KeyFeaturesTail) then Some(KeyFeatures)
    else if EndsWith(s, BalancedDetailTail) then Some(BalancedDetail)
    else if EndsWith(s, ComprehensiveTail) then Some(Comprehensive)
    else if EndsWith(s, VeryDetailedTail) then Some(VeryDetailed)
    else None
  }

  /** The characters near the end that tell the token tails apart. */
  lemma TokenTailEndings()
    ensures |KeyFeaturesTail| > 8 && |BalancedDetailTail| > 8
    ensures FromEnd(ConciseTail, 1) == 's' && FromEnd(ConciseTail, 2) == 'n'
    ensures FromEnd(KeyFeaturesTail, 1) == 'l' && FromEnd(KeyFeaturesTail, 8) == 'l'
    ensures FromEnd(BalancedDetailTail, 1) == 'l' && FromEnd(BalancedDetailTail, 8) == 'e'
    ensures FromEnd(ComprehensiveTail, 1) == 't'
    ensures FromEnd(VeryDetailedTail, 1) == 's' && FromEnd(VeryDetailedTail, 2) == 'e'
  {
  }

  /** Any text that ends with a band's tail is read back as that band. */
  lemma TokenTailDecodes(s: string, b: TokenBand)
    requires EndsWith(s, TokenTemplate(b).Tail())
    ensures TokenBandOfText(s) == Some(b)
  {
    TokenTailEndings();
    match b
    case Concise =>
    case KeyFeatures =>
      Apart(s, ConciseTail, KeyFeaturesTail, 1);
    case BalancedDetail =>
      Apart(s, ConciseTail, BalancedDetailTail, 1);
      Apart(s, KeyFeaturesTail, BalancedDetailTail, 8);
    case Comprehensive =>
      Apart(s, ConciseTail, ComprehensiveTail, 1);
      Apart(s, KeyFeaturesTail, ComprehensiveTail, 1);
      Apart(s, BalancedDetailTail, ComprehensiveTail, 1);
    case VeryDetailed =>
      Apart(s, ConciseTail, VeryDetailedTail, 2);
      Apart(s, KeyFeaturesTail, VeryDetailedTail, 1);
      Apart(s, BalancedDetailTail, VeryDetailedTail, 1);
      Apart(s, ComprehensiveTail, VeryDetailedTail, 1);
  }

  lemma TokenTextDecodes(n: int, render: Renderer)
    ensures TokenBandOfText(AnalyzeTokens(n, render)) == Some(ClassifyTokens(n))
  {
    TokenTailDecodes(AnalyzeTokens(n, render), ClassifyTokens(n));
  }

  /** The text depends on the budget only through its band and its rendering. */
  lemma TokenTextFactorsThroughBand(n1: int, n2: int, render1: Renderer, render2: Renderer)
    requires ClassifyTokens(n1) == ClassifyTokens(n2)
    requires render1(n1 as real) == render2(n2 as real)
    ensures AnalyzeTokens(n1, render1) == AnalyzeTokens(n2, render2)
  {
  }

  /** Every token band splices in the rendered count. */
  lemma TokenTextShowsValue(n: int, render1: Renderer, render2: Renderer)
    requires render1(n as real) != render2(n as real)
    ensures AnalyzeTokens(n, render1) != AnalyzeTokens(n, render2)
  {
    if AnalyzeTokens(n, render1) == AnalyzeTokens(n, render2) {
      FillInjective(TokenTemplate(ClassifyTokens(n)), render1(n as real), render2(n as real));
    }
  }

  // ---------------------------------------------------------------- penalties

  datatype PenaltyKind = Presence | Frequency

  datatype PenaltyBand = NoPenalty | Moderate | High | VeryHigh

  /** The bands as intervals, the same for both penalties. Only an exact
      zero is the no-penalty band, so negative penalties are moderate. */
  predicate InPenaltyBand(b: PenaltyBand, v: real) {
    match b
    case NoPenalty => v == 0.0
    case Moderate => v < 1.0 && v != 0.0
    case High => 1.0 <= v <= 2.0
    case VeryHigh => 2.0 < v
  }

  function ClassifyPenalty(v: real): (b: PenaltyBand)
    ensures InPenaltyBand(b, v)
  {
    if v == 0.0 then NoPenalty
    else if v < 1.0 then Moderate
    else if v <= 2.0 then High
    else VeryHigh
  }

  lemma PenaltyBandIff(b: PenaltyBand, v: real)
    ensures InPenaltyBand(b, v) <==> ClassifyPenalty(v) == b
  {
  }

  lemma PenaltyBoundaries()
    ensures ClassifyPenalty(0.0) == NoPenalty
    ensures ClassifyPenalty(-1.5) == Moderate && ClassifyPenalty(0.99) == Moderate
    ensures ClassifyPenalty(1.0) == High && ClassifyPenalty(2.0) == High
    ensures ClassifyPenalty(2.0001) == VeryHigh
  {
  }

  /** The page's inputs stop at 2, so the very-high band is never reached from them. */
  lemma PenaltyInputNeverVeryHigh(v: real)
    requires -2.0 <= v <= 2.0
    ensures ClassifyPenalty(v) != VeryHigh
  {
  }

  const NoPresenceText: string := "With no presence penalty (0.0), the model may focus on prominent aspects repeatedly."
  const ModeratePresenceTail: string := "), the model will somewhat avoid repeating the same topics."
  const HighPresenceTail: string := "), the model actively explores different aspects and characteristics."
  const VeryHighPresenceTail: string := "), the model strongly avoids topic repetition, potentially at the cost of coherence."

  const NoFrequencyText: string := "With no frequency penalty (0.0), word choice may be more repetitive but potentially more consistent."
  const ModerateFrequencyTail: string := "), the model will somewhat vary its word choices."
  const HighFrequencyTail: string := "), expect diverse vocabulary and varied expression styles."
  const VeryHighFrequencyTail: string := "), the model strongly avoids word repetition, potentially using unusual synonyms."

  function PresenceTemplate(b: PenaltyBand): Template {
    match b
    case NoPenalty => Fixed(NoPresenceText)
    case Moderate => Around("With a moderate presence penalty (", ModeratePresenceTail)
    case High => Around("With a high presence penalty (", HighPresenceTail)
    case VeryHigh => Around("With a very high presence penalty (", VeryHighPresenceTail)
  }

  function FrequencyTemplate(b: PenaltyBand): Template {
    match b
    case NoPenalty => Fixed(NoFrequencyText)
    case Moderate => Around("With a moderate frequency penalty (", ModerateFrequencyTail)
    case High => Around("With a high frequency penalty (", HighFrequencyTail)
    case VeryHigh => Around("With a very high frequency penalty (", VeryHighFrequencyTail)
  }

  function PenaltyTemplate(kind: PenaltyKind): PenaltyBand -> Template {
    match kind
    case Presence => PresenceTemplate
    case Frequency => FrequencyTemplate
  }

  /** One penalty's text: its kind's template for its band, around its rendering. */
  function AnalyzePenalty(kind: PenaltyKind, v: real, render: Renderer): (r: string)
    ensures EndsWith(r, PenaltyTemplate(kind)(ClassifyPenalty(v)).Tail())
    ensures v == 0.0 ==> r == (match kind case Presence => NoPresenceText case Frequency => NoFrequencyText)
  {
    FillEndsWithTail(PenaltyTemplate(kind)(ClassifyPenalty(v)), render(v));
    PenaltyTemplate(kind)(ClassifyPenalty(v)).Fill(render(v))
  }

  /** Reads a penalty band back from an analysis text of the given kind. */
  function PenaltyBandOfText(kind: PenaltyKind, s: string): Option<PenaltyBand> {
    match kind
    case Presence =>
      if EndsWith(s, NoPresenceText) then Some(NoPenalty)
      else if EndsWith(s, ModeratePresenceTail) then Some(Moderate)
      else if EndsWith(s, HighPresenceTail) then Some(High)
      else if EndsWith(s, VeryHighPresenceTail) then Some(VeryHigh)
      else None
    case Frequency =>
      if EndsWith(s, NoFrequencyText) then Some(NoPenalty)
      else if EndsWith(s, ModerateFrequencyTail) then Some(Moderate)
      else if EndsWith(s, HighFrequencyTail) then Some(High)
      else if EndsWith(s, VeryHighFrequencyTail) then Some(VeryHigh)
      else None
  }

  /** The characters near the end that tell the presence tails apart. */
  lemma PresenceTailEndings()
    ensures |ModeratePresenceTail| > 4 && |HighPresenceTail| > 4
    ensures FromEnd(NoPresenceText, 1) == 'y'
    ensures FromEnd(ModeratePresenceTail, 1) == 's' && FromEnd(ModeratePresenceTail, 4) == 'p'
    ensures FromEnd(HighPresenceTail, 1) == 's' && FromEnd(HighPresenceTail, 4) == 't'
    ensures FromEnd(VeryHighPresenceTail, 1) == 'e'
  {
  }

  lemma PresenceTailDecodes(s: string, b: PenaltyBand)
    requires EndsWith(s, PresenceTemplate(b).Tail())
    ensures PenaltyBandOfText(Presence, s) == Some(b)
  {
    PresenceTailEndings();
    match b
    case NoPenalty =>
    case Moderate =>
      Apart(s, NoPresenceText, ModeratePresenceTail, 1);
    case High =>
      Apart(s, NoPresenceText, HighPresenceTail, 1);
      Apart(s, ModeratePresenceTail, HighPresenceTail, 4);
    case VeryHigh =>
      Apart(s, NoPresenceText, VeryHighPresenceTail, 1);
      Apart(s, ModeratePresenceTail, VeryHighPresenceTail, 1);
      Apart(s, HighPresenceTail, VeryHighPresenceTail, 1);
  }

  /** The characters near the end that tell the frequency tails apart. */
  lemma FrequencyTailEndings()
    ensures |ModerateFrequencyTail| > 3 && |HighFrequencyTail| > 3 && |VeryHighFrequencyTail| > 2
    ensures FromEnd(NoFrequencyText, 1) == 't'
    ensures FromEnd(ModerateFrequencyTail, 1) == 's' && FromEnd(ModerateFrequencyTail, 2) == 'e'
    ensures FromEnd(ModerateFrequencyTail, 3) == 'c'
    ensures FromEnd(HighFrequencyTail, 1) == 's' && FromEnd(HighFrequencyTail, 2) == 'e'
    ensures FromEnd(HighFrequencyTail, 3) == 'l'
    ensures FromEnd(VeryHighFrequencyTail, 1) == 's' && FromEnd(VeryHighFrequencyTail, 2) == 'm'
  {
  }

  lemma FrequencyTailDecodes(s: string, b: PenaltyBand)
    requires EndsWith(s, FrequencyTemplate(b).Tail())
    ensures PenaltyBandOfText(Frequency, s) == Some(b)
  {
    FrequencyTailEndings();
    match b
    case NoPenalty =>
    case Moderate =>
      Apart(s, NoFrequencyText, ModerateFrequencyTail, 1);
    case High =>
      Apart(s, NoFrequencyText, HighFrequencyTail, 1);
      Apart(s, ModerateFrequencyTail, HighFrequencyTail, 3);
    case VeryHigh =>
      Apart(s, NoFrequencyText, VeryHighFrequencyTail, 1);
      Apart(s, ModerateFrequencyTail, VeryHighFrequencyTail, 2);
      Apart(s, HighFrequencyTail, VeryHighFrequencyTail, 2);
  }

  /** Each penalty text is read back, by the reader of its own kind, as its band. */
  lemma PenaltyTextDecodes(kind: PenaltyKind, v: real, render: Renderer)
    ensures PenaltyBandOfText(kind, AnalyzePenalty(kind, v, render)) == Some(ClassifyPenalty(v))
  {
    var b := ClassifyPenalty(v);
    FillEndsWithTail(PenaltyTemplate(kind)(b), render(v));
    match kind
    case Presence => PresenceTailDecodes(AnalyzePenalty(kind, v, render), b);
    case Frequency => FrequencyTailDecodes(AnalyzePenalty(kind, v, render), b);
  }

  /** Both penalties classified side by side: presence first, then frequency. */
  function AnalyzePenalties(presence: real, frequency: real, render: Renderer): (r: seq<string>)
    ensures |r| == 2
    ensures r[0] == AnalyzePenalty(Presence, presence, render)
    ensures r[1] == AnalyzePenalty(Frequency, frequency, render)
    ensures PenaltyBandOfText(Presence, r[0]) == Some(ClassifyPenalty(presence))
    ensures PenaltyBandOfText(Frequency, r[1]) == Some(ClassifyPenalty(frequency))
    ensures presence == 0.0 ==> r[0] == NoPresenceText
    ensures frequency == 0.0 ==> r[1] == NoFrequencyText
  {
    PenaltyTextDecodes(Presence, presence, render);
    PenaltyTextDecodes(Frequency, frequency, render);
    [AnalyzePenalty(Presence, presence, render), AnalyzePenalty(Frequency, frequency, render)]
  }

  /** The two classifications never interact. */
  lemma PenaltiesIndependent(p1: real, p2: real, f1: real, f2: real, render: Renderer)
    ensures AnalyzePenalties(p1, f1, render)[0] == AnalyzePenalties(p1, f2, render)[0]
    ensures AnalyzePenalties(p1, f1, render)[1] == AnalyzePenalties(p2, f1, render)[1]
  {
  }

  /** A penalty text depends on the penalty only through its band and its rendering. */
  lemma PenaltyTextFactorsThroughBand(kind: PenaltyKind, v1: real, v2: real, render1: Renderer, render2: Renderer)
    requires ClassifyPenalty(v1) == ClassifyPenalty(v2)
    requires render1(v1) == render2(v2)
    ensures AnalyzePenalty(kind, v1, render1) == AnalyzePenalty(kind, v2, render2)
  {
  }

  /** Every band but the no-penalty band splices in the rendered value. */
  lemma PenaltyTextShowsValue(kind: PenaltyKind, v: real, render1: Renderer, render2: Renderer)
    requires v != 0.0
    requires render1(v) != render2(v)
    ensures AnalyzePenalty(kind, v, render1) != AnalyzePenalty(kind, v, render2)
  {
    if AnalyzePenalty(kind, v, render1) == AnalyzePenalty(kind, v, render2) {
      FillInjective(PenaltyTemplate(kind)(ClassifyPenalty(v)), render1(v), render2(v));
    }
  }
}

=== FILE: grid_sweep.dfy ===
/**
 The grid sweep: one generation request per point of the product of four
 fixed axes (temperature, token budget, presence penalty, frequency penalty),
 visited by four nested loops with temperature outermost. Requests run one
 after another; a failed point is logged and skipped; the progress counter
 moves only when a point succeeds.
 */
module GridSweep {
  import opened PlaygroundTypes

  /** What one request yields: the generated text, or the message of the error
      that failed the point (a non-ok response and a thrown error alike). */
  datatype Reply = Generated(response: string) | Failed(message: string)

  /** The generation endpoint as the page sees it. Every point of a sweep is
      a different configuration (GridPointsDistinct), so a function covers
      every pattern of replies a sweep can meet. */
  type Generator = Config -> Reply

  const Temperatures: seq<real> := [0.0, 0.7, 1.2]
  const MaxTokensValues: seq<int> := [50, 150, 300]
  const PresencePenalties: seq<real> := [0.0, 1.5]
  const FrequencyPenalties: seq<real> := [0.0, 1.5]

  /** Fixed before the first request: the product of the axis lengths. */
  const TotalCombinations: nat :=
    |Temperatures| * |MaxTokensValues| * |PresencePenalties| * |FrequencyPenalties|

  lemma TotalIs36()
    ensures TotalCombinations == 36
  {
  }

  lemma AxisLengths()
    ensures |Temperatures| == 3 && |MaxTokensValues| == 3
    ensures |PresencePenalties| == 2 && |FrequencyPenalties| == 2
  {
  }

  /** A position of the nested loops: one index per axis, temperature first. */
  datatype Coordinates = Coordinates(t: nat, k: nat, p: nat, f: nat)

  predicate ValidCoordinates(c: Coordinates) {
    && c.t < |Temperatures|
    && c.k < |MaxTokensValues|
    && c.p < |PresencePenalties|
    && c.f < |FrequencyPenalties|
  }

  /** The number of points the nested loops visit before they reach c. */
  function IndexOf(c: Coordinates): (i: nat)
    requires ValidCoordinates(c)
    ensures i < TotalCombinations
  {
    ((c.t * |MaxTokensValues| + c.k) * |PresencePenalties| + c.p) * |FrequencyPenalties| + c.f
  }

  /** Point i is the mixed-radix reading of i over the axis lengths. */
  function CoordinatesOf(i: nat): (c: Coordinates)
    requires i < TotalCombinations
    ensures ValidCoordinates(c)
    ensures IndexOf(c) == i
  {
    AxisLengths();
    var afterFrequency := i / |FrequencyPenalties|;
    var afterPresence := afterFrequency / |PresencePenalties|;
    Coordinates(
      afterPresence / |MaxTokensValues|,
      afterPresence % |MaxTokensValues|,
      afterFrequency % |PresencePenalties|,
      i % |FrequencyPenalties|)
  }

  lemma CoordinatesRoundTrip(c: Coordinates)
    requires ValidCoordinates(c)
    ensures CoordinatesOf(IndexOf(c)) == c
  {
    AxisLengths();
    var i := IndexOf(c);
    assert i / 2 == (c.t * 3 + c.k) * 2 + c.p && i % 2 == c.f;
    assert (i / 2) / 2 == c.t * 3 + c.k && (i / 2) % 2 == c.p;
  }

  /** a comes before b when its first differing index is smaller. */
  predicate LexBefore(a: Coordinates, b: Coordinates) {
    || a.t < b.t
    || (a.t == b.t && a.k < b.k)
    || (a.t == b.t && a.k == b.k && a.p < b.p)
    || (a.t == b.t && a.k == b.k && a.p == b.p && a.f < b.f)
  }

  /** The loops visit the points in lexicographic order of their coordinates:
      temperature changes slowest, frequency penalty fastest. */
  lemma EnumerationIsLexicographic(a: Coordinates, b: Coordinates)
    requires ValidCoordinates(a) && ValidCoordinates(b)
    ensures IndexOf(a) < IndexOf(b) <==> LexBefore(a, b)
  {
  }

  /** The request sent at a point: the base with the four swept fields replaced. */
  function PointConfig(base: Config, c: Coordinates): Config
    requires ValidCoordinates(c)
  {
    base.(temperature := Temperatures[c.t],
          maxTokens := MaxTokensValues[c.k],
          presencePenalty := PresencePenalties[c.p],
          frequencyPenalty := FrequencyPenalties[c.f])
  }

  predicate SameUnsweptFields(a: Config, b: Config) {
    && a.model == b.model
    && a.systemPrompt == b.systemPrompt
    && a.userPrompt == b.userPrompt
    && a.stopSequence == b.stopSequence
  }

  /** Every point, in the order the nested loops visit them. */
  function GridPoints(base: Config): (points: seq<Config>)
    ensures |points| == TotalCombinations
    ensures forall i :: 0 <= i < |points| ==> SameUnsweptFields(points[i], base)
  {
    seq(TotalCombinations, i requires 0 <= i < TotalCombinations => PointConfig(base, CoordinatesOf(i)))
  }

  /** The loops' point at c is the point of the enumeration at c's index. */
  lemma GridPointAt(base: Config, c: Coordinates)
    requires ValidCoordinates(c)
    ensures GridPoints(base)[IndexOf(c)] == PointConfig(base, c)
  {
    CoordinatesRoundTrip(c);
  }

  /** No two points of a sweep are the same configuration. */
  lemma GridPointsDistinct(base: Config, i: nat, j: nat)
    requires i < j < TotalCombinations
    ensures GridPoints(base)[i] != GridPoints(base)[j]
  {
    var a, b := CoordinatesOf(i), CoordinatesOf(j);
    assert a != b;
    if a.t != b.t {
      assert Temperatures[a.t] != Temperatures[b.t];
    } else if a.k != b.k {
      assert MaxTokensValues[a.k] != MaxTokensValues[b.k];
    } else if a.p != b.p {
      assert PresencePenalties[a.p] != PresencePenalties[b.p];
    } else {
      assert FrequencyPenalties[a.f] != FrequencyPenalties[b.f];
    }
  }

  /** Whatever the base holds, a sweep only sends numbers within the page's input ranges:
      all four bounded fields are overwritten with axis values. */
  lemma GridPointsWithinInputBounds(base: Config, i: nat)
    requires i < TotalCombinations
    ensures WithinInputBounds(GridPoints(base)[i])
  {
  }

  /** The entry kept for a successful point: its four swept numbers and the text. */
  function GridEntry(point: Config, response: string): GridResult {
    GridResult(point.temperature, point.maxTokens, point.presencePenalty, point.frequencyPenalty, response)
  }

  /** The entries a sweep over these points keeps: one per successful point, in point order. */
  function Successes(points: seq<Config>, gen: Generator): seq<GridResult> {
    if |points| == 0 then []
    else
      var last := points[|points| - 1];
      Successes(points[..|points| - 1], gen)
        + match gen(last)
          case Generated(text) => [GridEntry(last, text)]
          case Failed(_) => []
  }

  /** The messages a sweep over these points logs: one per failed point, in point order. */
  function FailureMessages(points: seq<Config>, gen: Generator): seq<string> {
    if |points| == 0 then []
    else
      var last := points[|points| - 1];
      FailureMessages(points[..|points| - 1], gen)
        + match gen(last)
          case Generated(_) => []
          case Failed(message) => [message]
  }

  /** The positions of the successful points, in increasing order. */
  function SuccessIndices(points: seq<Config>, gen: Generator): seq<nat> {
    if |points| == 0 then []
    else
      SuccessIndices(points[..|points| - 1], gen)
        + if gen(points[|points| - 1]).Generated? then [|points| - 1] else []
  }

  /** Every point is either kept or logged, never both and never neither. */
  lemma {:induction false} SuccessesAndFailuresPartition(points: seq<Config>, gen: Generator)
    ensures |Successes(points, gen)| + |FailureMessages(points, gen)| == |points|
  {
    if |points| > 0 {
      SuccessesAndFailuresPartition(points[..|points| - 1], gen);
    }
  }

  /** The kept entries are the successful points at these positions, each
      with its own four numbers and its own response. */
  lemma {:induction false} SuccessIndicesPickSuccesses(points: seq<Config>, gen: Generator)
    ensures |SuccessIndices(points, gen)| == |Successes(points, gen)|
    ensures forall j :: 0 <= j < |SuccessIndices(points, gen)| ==>
      var i := SuccessIndices(points, gen)[j];
      i < |points| && gen(points[i]).Generated? &&
      Successes(points, gen)[j] == GridEntry(points[i], gen(points[i]).response)
  {
    if |points| > 0 {
      var front := points[..|points| - 1];
      SuccessIndicesPickSuccesses(front, gen);
      assert forall i :: 0 <= i < |front| ==> front[i] == points[i];
    }
  }

  /** The positions are increasing: the kept entries keep enumeration order. */
  lemma {:induction false} SuccessIndicesIncreasing(points: seq<Config>, gen: Generator)
    ensures forall j :: 0 <= j < |SuccessIndices(points, gen)| ==> SuccessIndices(points, gen)[j] < |points|
    ensures forall j1, j2 :: 0 <= j1 < j2 < |SuccessIndices(points, gen)| ==>
      SuccessIndices(points, gen)[j1] < SuccessIndices(points, gen)[j2]
  {
    if |points| > 0 {
      SuccessIndicesIncreasing(points[..|points| - 1], gen);
    }
  }

  /** No successful point is missing from the positions. */
  lemma {:induction false} SuccessIndicesComplete(points: seq<Config>, gen: Generator)
    ensures forall i :: 0 <= i < |points| && gen(points[i]).Generated? ==> i in SuccessIndices(points, gen)
  {
    if |points| > 0 {
      var front := points[..|points| - 1];
      SuccessIndicesComplete(front, gen);
      assert forall i :: 0 <= i < |front| ==> front[i] == points[i];
    }
  }

  /** When every request succeeds, every point is kept, in order. */
  lemma {:induction false} AllSucceed(points: seq<Config>, gen: Generator)
    requires forall i :: 0 <= i < |points| ==> gen(points[i]).Generated?
    ensures |Successes(points, gen)| == |points|
    ensures forall i :: 0 <= i < |points| ==>
      Successes(points, gen)[i] == GridEntry(points[i], gen(points[i]).response)
  {
    if |points| > 0 {
      var front := points[..|points| - 1];
      assert forall i :: 0 <= i < |front| ==> front[i] == points[i];
      AllSucceed(front, gen);
    }
  }

  /** One progress report: the toast "completed/total". */
  datatype Progress = Progress(completed: nat, total: nat)

  /** After the first n points: what was kept, logged and reported so far. */
  ghost predicate SweptPrefix(points: seq<Config>, n: nat, gen: Generator,
                              results: seq<GridResult>, errors: seq<string>,
                              progress: seq<Progress>, completed: nat)
  {
    && n <= |points|
    && results == Successes(points[..n], gen)
    && errors == FailureMessages(points[..n], gen)
    && completed == |results|
    && |progress| == |results|
    && forall j :: 0 <= j < |progress| ==> progress[j] == Progress(j + 1, TotalCombinations)
  }

  /**
   One point of the sweep: send the request; on success keep the entry, bump
   the counter and report progress; on failure log the message and go on.
   */
  method VisitPoint(ghost points: seq<Config>, ghost n: nat, gen: Generator,
                    testConfig: Config, totalCombinations: nat,
                    results: seq<GridResult>, errors: seq<string>,
                    progress: seq<Progress>, completed: nat)
    returns (results': seq<GridResult>, errors': seq<string>,
             progress': seq<Progress>, completed': nat)
    requires SweptPrefix(points, n, gen, results, errors, progress, completed)
    requires n < |points| && points[n] == testConfig
    requires totalCombinations == TotalCombinations
    ensures SweptPrefix(points, n + 1, gen, results', errors', progress', completed')
  {
    assert points[..n + 1][..n] == points[..n];
    results', errors', progress', completed' := results, errors, progress, completed;
    match gen(testConfig)
    case Generated(text) =>
      results' := results + [GridResult(testConfig.temperature, testConfig.maxTokens,
                                        testConfig.presencePenalty, testConfig.frequencyPenalty, text)];
      completed' := completed + 1;
      progress' := progress + [Progress(completed', totalCombinations)];
    case Failed(message) =>
      errors' := errors + [message];
  }

  /**
   The sweep as the page runs it: one request per point, in the order of the
   four nested loops (GridPoints). A success appends the point's entry, bumps
   the counter and reports progress; a failure only logs its message; either
   way the sweep goes on to the next point.
   */
  method RunSweep(base: Config, gen: Generator)
    returns (results: seq<GridResult>, progress: seq<Progress>, errors: seq<string>)
    ensures results == Successes(GridPoints(base), gen)
    ensures errors == FailureMessages(GridPoints(base), gen)
    ensures |results| <= TotalCombinations
    ensures |progress| == |results|
    ensures forall j :: 0 <= j < |progress| ==> progress[j] == Progress(j + 1, TotalCombinations)
  {
    var totalCombinations := |Temperatures| * |MaxTokensValues| * |PresencePenalties| * |FrequencyPenalties|;
    var completedCombinations := 0;
    results, progress, errors := [], [], [];
    var points := GridPoints(base);

    var i := 0;
    while i < |points|
      invariant i <= |points|
      invariant SweptPrefix(points, i, gen, results, errors, progress, completedCombinations)
    {
      results, errors, progress, completedCombinations :=
        VisitPoint(points, i, gen, points[i], totalCombinations,
                   results, errors, progress, completedCombinations);
      i := i + 1;
    }
    assert points[..i] == points;
    SuccessesAndFailuresPartition(points, gen);
  }
}

=== FILE: playground.dfy ===
/**
 The playground page's state and the three operations that change it:
 editing one field of the configuration, generating one response, and
 running a grid sweep.
 */
module Playground {
  import opened PlaygroundTypes
  import opened GridSweep
  import Analysis
  import ResponseAnalysis

  datatype State = State(
    config: Config,
    results: seq<PlaygroundResult>,
    gridResults: seq<GridResult>,
    singleLoading: bool,
    gridLoading: bool)

  /** The page as it first appears. */
  const InitialState: State := State(DefaultConfig, [], [], false, false)

  /** The page opens on the default configuration, with no history, no grid and nothing loading. */
  lemma InitialStateValues()
    ensures InitialState.config == DefaultConfig
    ensures InitialState.results == [] && InitialState.gridResults == []
    ensures !InitialState.singleLoading && !InitialState.gridLoading
  {
  }

  // ---------------------------------------------------------------- editing

  /** The names of the configuration's fields. */
  datatype Field =
    | ModelField | TemperatureField | MaxTokensField | PresencePenaltyField
    | FrequencyPenaltyField | SystemPromptField | UserPromptField | StopSequenceField

  /** A field's value, whatever its type. */
  datatype FieldValue =
    | ModelValue(m: ModelName)
    | NumberValue(x: real)
    | CountValue(n: int)
    | TextValue(s: string)
    | OptionalTextValue(o: Option<string>)

  function Get(c: Config, f: Field): FieldValue {
    match f
    case ModelField => ModelValue(c.model)
    case TemperatureField => NumberValue(c.temperature)
    case MaxTokensField => CountValue(c.maxTokens)
    case PresencePenaltyField => NumberValue(c.presencePenalty)
    case FrequencyPenaltyField => NumberValue(c.frequencyPenalty)
    case SystemPromptField => TextValue(c.systemPrompt)
    case UserPromptField => TextValue(c.userPrompt)
    case StopSequenceField => OptionalTextValue(c.stopSequence)
  }

  /** The fields say everything about a configuration. */
  lemma FieldsDetermineConfig(a: Config, b: Config)
    requires forall f :: Get(a, f) == Get(b, f)
    ensures a == b
  {
    assert Get(a, ModelField) == Get(b, ModelField);
    assert Get(a, TemperatureField) == Get(b, TemperatureField);
    assert Get(a, MaxTokensField) == Get(b, MaxTokensField);
    assert Get(a, PresencePenaltyField) == Get(b, PresencePenaltyField);
    assert Get(a, FrequencyPenaltyField) == Get(b, FrequencyPenaltyField);
    assert Get(a, SystemPromptField) == Get(b, SystemPromptField);
    assert Get(a, UserPromptField) == Get(b, UserPromptField);
    assert Get(a, StopSequenceField) == Get(b, StopSequenceField);
  }

  /** One change from the page's inputs: a field and its new value. The stop
      sequence input always sets a text, possibly empty. */
  datatype Edit =
    | SetModel(m: ModelName)
    | SetTemperature(x: real)
    | SetMaxTokens(n: int)
    | SetPresencePenalty(x: real)
    | SetFrequencyPenalty(x: real)
    | SetSystemPrompt(s: string)
    | SetUserPrompt(s: string)
    | SetStopSequence(s: string)
  {
    function Field(): Field {
      match this
      case SetModel(_) => ModelField
      case SetTemperature(_) => TemperatureField
      case SetMaxTokens(_) => MaxTokensField
      case SetPresencePenalty(_) => PresencePenaltyField
      case SetFrequencyPenalty(_) => FrequencyPenaltyField
      case SetSystemPrompt(_) => SystemPromptField
      case SetUserPrompt(_) => UserPromptField
      case SetStopSequence(_) => StopSequenceField
    }

    function Value(): FieldValue {
      match this
      case SetModel(m) => ModelValue(m)
      case SetTemperature(x) => NumberValue(x)
      case SetMaxTokens(n) => CountValue(n)
      case SetPresencePenalty(x) => NumberValue(x)
      case SetFrequencyPenalty(x) => NumberValue(x)
      case SetSystemPrompt(s) => TextValue(s)
      case SetUserPrompt(s) => TextValue(s)
      case SetStopSequence(s) => OptionalTextValue(Some(s))
    }
  }

  /** A copy of the configuration with the named field replaced. */
  function HandleConfigChange(c: Config, e: Edit): (r: Config)
    ensures Get(r, e.Field()) == e.Value()
    ensures forall f :: f != e.Field() ==> Get(r, f) == Get(c, f)
  {
    match e
    case SetModel(m) => c.(model := m)
    case SetTemperature(x) => c.(temperature := x)
    case SetMaxTokens(n) => c.(maxTokens := n)
    case SetPresencePenalty(x) => c.(presencePenalty := x)
    case SetFrequencyPenalty(x) => c.(frequencyPenalty := x)
    case SetSystemPrompt(s) => c.(systemPrompt := s)
    case SetUserPrompt(s) => c.(userPrompt := s)
    case SetStopSequence(s) => c.(stopSequence := Some(s))
  }

  /** Of two edits to one field, the later wins. */
  lemma LaterEditWins(c: Config, e1: Edit, e2: Edit)
    requires e1.Field() == e2.Field()
    ensures HandleConfigChange(HandleConfigChange(c, e1), e2) == HandleConfigChange(c, e2)
  {
    var a := HandleConfigChange(HandleConfigChange(c, e1), e2);
    var b := HandleConfigChange(c, e2);
    forall f ensures Get(a, f) == Get(b, f) {
    }
    FieldsDetermineConfig(a, b);
  }

  /** Edits to different fields do not interfere. */
  lemma EditsToDifferentFieldsCommute(c: Config, e1: Edit, e2: Edit)
    requires e1.Field() != e2.Field()
    ensures HandleConfigChange(HandleConfigChange(c, e1), e2) == HandleConfigChange(HandleConfigChange(c, e2), e1)
  {
    var a := HandleConfigChange(HandleConfigChange(c, e1), e2);
    var b := HandleConfigChange(HandleConfigChange(c, e2), e1);
    forall f ensures Get(a, f) == Get(b, f) {
    }
    FieldsDetermineConfig(a, b);
  }

  /** Setting a field to the value it already has changes nothing. */
  lemma EditToCurrentValueIsIdentity(c: Config, e: Edit)
    requires Get(c, e.Field()) == e.Value()
    ensures HandleConfigChange(c, e) == c
  {
    var r := HandleConfigChange(c, e);
    forall f ensures Get(r, f) == Get(c, f) {
    }
    FieldsDetermineConfig(r, c);
  }

  function ChangeConfig(s: State, e: Edit): (r: State)
    ensures r.results == s.results && r.gridResults == s.gridResults
    ensures r.singleLoading == s.singleLoading && r.gridLoading == s.gridLoading
    ensures Get(r.config, e.Field()) == e.Value()
    ensures forall f :: f != e.Field() ==> Get(r.config, f) == Get(s.config, f)
  {
    s.(config := HandleConfigChange(s.config, e))
  }

  // ---------------------------------------------------------------- one generation

  /** One request with the current configuration. A success puts a snapshot
      of the configuration and the response in front of the history; a
      failure leaves the history alone. Loading ends either way. */
  function GenerateResponse(s: State, gen: Generator): (r: State)
    ensures !r.singleLoading
    ensures r.config == s.config && r.gridResults == s.gridResults && r.gridLoading == s.gridLoading
    ensures |r.results| == |s.results| + (if gen(s.config).Generated? then 1 else 0)
    ensures r.results[|r.results| - |s.results|..] == s.results
    ensures gen(s.config).Generated? ==>
      r.results[0].config == s.config && r.results[0].response == gen(s.config).response &&
      r.results[0].error.None?
  {
    match gen(s.config)
    case Generated(text) =>
      s.(results := [PlaygroundResult(s.config, text, None)] + s.results, singleLoading := false)
    case Failed(_) =>
      s.(singleLoading := false)
  }

  // ---------------------------------------------------------------- grid sweep

  /**
   The grid button. While a sweep runs, another press does nothing. Otherwise
   the sweep runs over the current configuration, its entries replace the
   previous grid wholesale, and loading ends.
   */
  method GenerateGrid(s: State, gen: Generator) returns (r: State, progress: seq<Progress>, errors: seq<string>)
    ensures s.gridLoading ==> r == s && progress == [] && errors == []
    ensures !s.gridLoading ==> r == s.(gridResults := Successes(GridPoints(s.config), gen))
    ensures r.gridLoading == s.gridLoading
    ensures !s.gridLoading ==> |progress| == |r.gridResults|
    ensures !s.gridLoading ==> errors == FailureMessages(GridPoints(s.config), gen)
    ensures |progress| <= TotalCombinations
    ensures forall j :: 0 <= j < |progress| ==> progress[j] == Progress(j + 1, TotalCombinations)
  {
    if s.gridLoading {
      return s, [], [];
    }
    var running := s.(gridLoading := true);
    var results;
    results, progress, errors := RunSweep(running.config, gen);
    r := running.(gridResults := results, gridLoading := false);
  }

  /** Every panel in the grid is the panel of the configuration its entry was generated from. */
  lemma GridPanelsMatchPoints(base: Config, gen: Generator, j: nat, render: Analysis.Renderer)
    requires j < |Successes(GridPoints(base), gen)|
    ensures j < |SuccessIndices(GridPoints(base), gen)| && SuccessIndices(GridPoints(base), gen)[j] < TotalCombinations &&
      ResponseAnalysis.Report(ResponseAnalysis.OfGridResult(Successes(GridPoints(base), gen)[j]), render)
        == ResponseAnalysis.Report(ResponseAnalysis.OfConfig(GridPoints(base)[SuccessIndices(GridPoints(base), gen)[j]]), render)
  {
    SuccessIndicesPickSuccesses(GridPoints(base), gen);
  }
}

=== FILE: response_analysis.dfy ===
/**
 The analysis panel shown under every response: four labelled fragments in a
 fixed order, temperature, token budget, presence penalty, frequency penalty.
 The panel only reads the four numeric parameters, so a grid entry and a full
 configuration with the same four numbers get the same panel.
 */
module ResponseAnalysis {
  import opened PlaygroundTypes
  import opened Analysis

  /** The four numbers the panel reads. */
  datatype AnalysisConfig = AnalysisConfig(
    temperature: real,
    maxTokens: int,
    presencePenalty: real,
    frequencyPenalty: real)

  function OfConfig(c: Config): AnalysisConfig {
    AnalysisConfig(c.temperature, c.maxTokens, c.presencePenalty, c.frequencyPenalty)
  }

  function OfGridResult(g: GridResult): AnalysisConfig {
    AnalysisConfig(g.temperature, g.maxTokens, g.presencePenalty, g.frequencyPenalty)
  }

  datatype Heading = TemperatureEffect | TokenImpact | PenaltyEffect

  datatype Fragment = Fragment(heading: Heading, text: string)

  /** The four bands a panel reports. */
  datatype Bands = Bands(
    temperature: TemperatureBand,
    tokens: TokenBand,
    presence: PenaltyBand,
    frequency: PenaltyBand)

  function BandsOf(a: AnalysisConfig): Bands {
    Bands(ClassifyTemperature(a.temperature), ClassifyTokens(a.maxTokens),
          ClassifyPenalty(a.presencePenalty), ClassifyPenalty(a.frequencyPenalty))
  }

  /** Reads the four bands back from a panel, or nothing when the panel does
      not have the shape the page produces. */
  function BandsOfReport(report: seq<Fragment>): Option<Bands> {
    if |report| != 4 then None
    else if report[0].heading != TemperatureEffect || report[1].heading != TokenImpact then None
    else if report[2].heading != PenaltyEffect || report[3].heading != PenaltyEffect then None
    else
      match (TemperatureBandOfText(report[0].text), TokenBandOfText(report[1].text),
             PenaltyBandOfText(Presence, report[2].text), PenaltyBandOfText(Frequency, report[3].text))
      case (Some(t), Some(k), Some(p), Some(f)) => Some(Bands(t, k, p, f))
      case _ => None
  }

  /** Four fragments with the page's headings read back as the bands their texts show. */
  lemma FragmentsReadBack(temperatureText: string, tokenText: string, presenceText: string,
                          frequencyText: string, b: Bands)
    requires TemperatureBandOfText(temperatureText) == Some(b.temperature)
    requires TokenBandOfText(tokenText) == Some(b.tokens)
    requires PenaltyBandOfText(Presence, presenceText) == Some(b.presence)
    requires PenaltyBandOfText(Frequency, frequencyText) == Some(b.frequency)
    ensures BandsOfReport([Fragment(TemperatureEffect, temperatureText), Fragment(TokenImpact, tokenText),
                           Fragment(PenaltyEffect, presenceText), Fragment(PenaltyEffect, frequencyText)]) == Some(b)
  {
  }

  /** The panel: the temperature fragment, the token fragment, then one
      fragment per penalty text (there are always two) in the order the
      penalty analysis returns them. */
  function Report(a: AnalysisConfig, render: Renderer): (r: seq<Fragment>)
    ensures |r| == 4
    ensures r[0] == Fragment(TemperatureEffect, AnalyzeTemperature(a.temperature, render))
    ensures r[1] == Fragment(TokenImpact, AnalyzeTokens(a.maxTokens, render))
    ensures r[2] == Fragment(PenaltyEffect, AnalyzePenalties(a.presencePenalty, a.frequencyPenalty, render)[0])
    ensures r[3] == Fragment(PenaltyEffect, AnalyzePenalties(a.presencePenalty, a.frequencyPenalty, render)[1])
    ensures BandsOfReport(r) == Some(BandsOf(a))
  {
    var temperatureAnalysis := AnalyzeTemperature(a.temperature, render);
    var tokenAnalysis := AnalyzeTokens(a.maxTokens, render);
    var penaltyAnalyses := AnalyzePenalties(a.presencePenalty, a.frequencyPenalty, render);
    TemperatureTextDecodes(a.temperature, render);
    TokenTextDecodes(a.maxTokens, render);
    FragmentsReadBack(temperatureAnalysis, tokenAnalysis, penaltyAnalyses[0], penaltyAnalyses[1], BandsOf(a));
    [Fragment(TemperatureEffect, temperatureAnalysis), Fragment(TokenImpact, tokenAnalysis),
     Fragment(PenaltyEffect, penaltyAnalyses[0]), Fragment(PenaltyEffect, penaltyAnalyses[1])]
  }

  /** Each fragment reads one number only: changing any other number leaves it as it was. */
  lemma ReportFragmentsAreLocal(a: AnalysisConfig, b: AnalysisConfig, render: Renderer)
    ensures a.temperature == b.temperature ==> Report(a, render)[0] == Report(b, render)[0]
    ensures a.maxTokens == b.maxTokens ==> Report(a, render)[1] == Report(b, render)[1]
    ensures a.presencePenalty == b.presencePenalty ==> Report(a, render)[2] == Report(b, render)[2]
    ensures a.frequencyPenalty == b.frequencyPenalty ==> Report(a, render)[3] == Report(b, render)[3]
  {
  }

  /** A grid entry gets the panel of any configuration with the same four numbers. */
  lemma GridEntryReportMatchesConfig(g: GridResult, c: Config, render: Renderer)
    requires g.temperature == c.temperature && g.maxTokens == c.maxTokens
    requires g.presencePenalty == c.presencePenalty && g.frequencyPenalty == c.frequencyPenalty
    ensures Report(OfGridResult(g), render) == Report(OfConfig(c), render)
  {
  }
}

=== FILE: types.dfy ===
/**
 The data model of the playground: the generation configuration a user edits,
 the record kept for a single generation, the record kept for one point of a
 grid sweep, and the default configuration the page starts from.
 */
module PlaygroundTypes {

  datatype Option<T> = None | Some(value: T)

  /** The two model identifiers a configuration may name. */
  datatype ModelName = Gpt35Turbo | Gpt4 {
    /** The identifier sent to the provider and shown in the model selector. */
    function Id(): string {
      match this
      case Gpt35Turbo => "gpt-3.5-turbo"
      case Gpt4 => "gpt-4"
    }
  }

  /** Narrows an arbitrary identifier to one of the two model names. */
  function ParseModelName(s: string): (r: Option<ModelName>)
    ensures r.Some? ==> r.value.Id() == s
    ensures r.None? ==> forall m: ModelName :: m.Id() != s
  {
    if s == "gpt-3.5-turbo" then Some(Gpt35Turbo)
    else if s == "gpt-4" then Some(Gpt4)
    else None
  }

  /** Every model name survives the trip through its identifier. */
  lemma ModelIdRoundTrip(m: ModelName)
    ensures ParseModelName(m.Id()) == Some(m)
  {
  }

  /** The configuration of one generation request. Numbers are exact: the
      sweep and the analysis only compare them against literal thresholds. */
  datatype Config = Config(
    model: ModelName,
    temperature: real,
    maxTokens: int,
    presencePenalty: real,
    frequencyPenalty: real,
    systemPrompt: string,
    userPrompt: string,
    stopSequence: Option<string>)

  /** One entry of the single-generation history. */
  datatype PlaygroundResult = PlaygroundResult(config: Config, response: string, error: Option<string>)

  /** One entry of a grid sweep: the four swept numbers and the response. */
  datatype GridResult = GridResult(
    temperature: real,
    maxTokens: int,
    presencePenalty: real,
    frequencyPenalty: real,
    response: string)

  const DefaultSystemPrompt: string := "You are a helpful AI assistant that generates product descriptions."

  const DefaultUserPrompt: string := "Generate a product description for the latest iPhone model."

  const DefaultConfig: Config := Config(
    Gpt35Turbo, 0.7, 150, 0.0, 0.0, DefaultSystemPrompt, DefaultUserPrompt, None)

  /** The min and max of the page's number inputs. */
  predicate WithinInputBounds(c: Config) {
    && 0.0 <= c.temperature <= 2.0
    && 1 <= c.maxTokens <= 2000
    && -2.0 <= c.presencePenalty <= 2.0
    && -2.0 <= c.frequencyPenalty <= 2.0
  }

  lemma DefaultConfigValues()
    ensures DefaultConfig.model.Id() == "gpt-3.5-turbo"
    ensures DefaultConfig.temperature == 0.7
    ensures DefaultConfig.maxTokens == 150
    ensures DefaultConfig.presencePenalty == 0.0 && DefaultConfig.frequencyPenalty == 0.0
    ensures DefaultConfig.stopSequence.None?
  {
  }

  lemma DefaultConfigWithinInputBounds()
    ensures WithinInputBounds(DefaultConfig)
  {
  }
}
